=== FILE: README.md ===
# Classroom access control and membership, in Dafny

A model of the core of a Django REST Framework classroom service. In the
service, Teachers create courses, add and remove members, post lectures and
homework, and grade solutions. Students submit one solution per homework and
read their marks. The model covers:

- **Models** (`models.dfy`): the records of `classroom/models.py` as
  datatypes, the store of all tables, and the invariants the schema keeps
  (`WellFormed`): foreign keys name stored rows, memberships name stored
  users, one mark per solution, unique usernames, mark values in the small
  integer range. `FreshKey` picks an unused key above every key in use;
  unlike a database sequence it can reissue the key of a deleted maximum
  row, and no property here depends on that. A role is Student, Teacher or
  some other tag, never an other tag spelled like one of the two choices.
  `OneSolutionPerAuthor` (one solution per author and homework) is not part
  of `WellFormed`: the schema does not enforce it, only the solution-create
  permission list does.
- **Cascade** (`cascade.dfy`): deletion under `on_delete=CASCADE` on every
  foreign key, and a deleted user leaving both membership tables.
- **Permissions** (`permissions.dfy`): the permission classes of
  `classroom/permissions.py`, each answering Allow, Deny, or Error (an
  exception that escapes, a 500). It also contains the course-hierarchy
  resolution `UserIsCourseMember` relies on, with a walk-up definition
  (`Resolve`) proved equal to the join the lookup describes
  (`CourseCandidates`).
- **Policy** (`policy.dfy`): each view's `permission_classes` list as an
  expression over those classes. A list is an in-order conjunction, `|` is a
  short-circuit or, and Python's `and` between two classes yields the right
  one. The module also holds the route table of `classroom/urls.py` and,
  per view, the decision rule a list comes to.
- **Serializers** (`serializers.dfy`): `CourseSerializer.create` with its
  role-filtered username slug fields.
- **Views** (`views.dfy`): the add-member and delete-member handlers, the
  parent filters of `get_queryset`, what each `perform_create` saves, and
  the two saves that cannot succeed as written (see Findings).

Requests carry the authenticated user (or none), the HTTP method and the ids
captured from the URL. Exceptions become `Error`/`Crash`/500; the model keeps
them apart from denials.

## Model

| member | source | states |
|---|---|---|
| Cascade.Delete | classroom/models.py:19-78 | deleting roots keeps the store well-formed and one solution per author and homework, removes the roots, removes deleted users from every surviving course's teacher and student tables, and leaves every other surviving row unchanged |
| Cascade.DeleteRecord | classroom/views.py:15-21 | deleting a single course (the viewset's destroy) or any other record keeps the store well-formed |
| Cascade.CascadeRule | classroom/models.py:33-78 | a lecture, homework, solution, mark or commentary survives exactly when it is not deleted itself and every row its foreign keys name survives |
| Cascade.DeleteCourseRemovesLectures | classroom/models.py:38 | deleting a course deletes exactly its lectures and no others |
| Cascade.DeleteUserRemovesAuthored | classroom/models.py:61-78 | deleting a user deletes every solution and commentary they wrote and every mark they gave, and takes them out of every course |
| Permissions.Candidates | classroom/permissions.py:57-68 | every candidate is a stored course; which ones is stated by Permissions.CandidatesAreMatches |
| Permissions.Resolve | classroom/permissions.py:62-72 | a resolved course is always a stored course; which one, and when, is stated by Permissions.ResolveIsUniqueMatch |
| Permissions.CandidatesAreMatches | classroom/permissions.py:63-68 | walking up from the supplied ids finds exactly the courses the course-to-lecture-to-homework-to-solution join finds |
| Permissions.ResolveIsUniqueMatch | classroom/permissions.py:62-72 | resolution succeeds iff the join finds exactly one distinct course, and then yields that course |
| Permissions.MismatchedCourseAndLectureDenied | classroom/permissions.py:62-72 | a course id and a lecture id that belong to different courses never resolve |
| Permissions.UnknownLectureIgnored | classroom/permissions.py:63-68 | a lecture id naming no lecture adds no alternative, so a valid course id beside it still resolves |
| Permissions.SafeOnly | classroom/permissions.py:9-13 | allows exactly GET, HEAD and OPTIONS; any other method gets None, a denial, never an exception |
| Permissions.UserIsTeacher | classroom/permissions.py:16-19 | allows exactly a Teacher; the anonymous user raises |
| Permissions.UserIsStudent | classroom/permissions.py:22-25 | allows exactly a Student, who is then never a Teacher; the anonymous user raises |
| Permissions.StudentHasNoSolution | classroom/permissions.py:28-38 | raises iff the route has no homework id or the requester wrote two or more solutions for the homework (get() finds several); allows iff the requester is anonymous or wrote none; denies iff they wrote exactly one; never raises on a homework route while each author has one solution per homework |
| Permissions.UserSolutionOwner | classroom/permissions.py:41-51 | raises without a solution id or with the anonymous user; allows iff the path's solution exists and its author is the requester |
| Permissions.UserIsCourseMember | classroom/permissions.py:54-81 | never raises; allows iff the requester is authenticated, the ids resolve to exactly one course, and the requester is in that course's table for their role (Teacher in teachers, Student in students, any other role nowhere) |
| Policy.Eval | classroom/views.py:19 | `|` short-circuits: a left operand that allows decides, an exception in the left operand escapes, a left operand that denies hands the verdict, exception included, to the right one (so the result raises iff the left raises or the left denies and the right raises), and without exceptions the result allows iff either operand allows; a single class answers as that class; what whole lists decide is stated by Policy.CheckAll and the rule lemmas below |
| Policy.ClassAnd | classroom/views.py:163 | Python's `and` between two classes evaluates exactly as its right operand, so the left one is never consulted |
| Policy.Classes | classroom/views.py:17-202 | every list starts with IsAuthenticated, and every view except the course viewset checks course membership |
| Policy.RouteKeys | classroom/urls.py:9-56 | every route except the course router's captures a course id, a route with a lecture id also has a course id, and only the router captures `pk` |
| Policy.CheckAll | classroom/views.py:29-33 | a list allows iff every class allows; otherwise its verdict is that of the first class that does not allow |
| Policy.AnonymousAlwaysDenied | classroom/views.py:15-205 | every view denies the anonymous user, whatever its other classes would do |
| Policy.CourseViewRule | classroom/views.py:15-21 | an authenticated user may use the course endpoints with a safe method, and only a Teacher with any other; never an exception |
| Policy.TeacherOnlyRule | classroom/views.py:27-33 | member management, lecture and homework creation, homework solutions and mark creation allow iff the requester is a Teacher who is a member of the resolved course |
| Policy.ReadOrTeacherRule | classroom/views.py:81-90 | lecture and homework detail allow a member to read, and only a member Teacher to write |
| Policy.SolutionCreateRule | classroom/views.py:142-149 | solution creation allows iff the requester is a Student, a member of the course, with no solution yet for the homework; it raises iff such a Student already has two or more, so never while each author has one solution per homework |
| Policy.OwnerOrTeacherRule | classroom/views.py:155-165 | solution and mark detail allow iff the requester is a member and either owns the solution or is a Teacher |
| Policy.StudentTestRedundant | classroom/views.py:181-191 | those lists decide as the intended member and ((Student and owner) or Teacher) would |
| Policy.CommentaryRouteFails | classroom/views.py:194-202 | on the commentary route nobody is allowed; an authenticated member gets an exception, everyone else a denial |
| Serializers.ResolveSlugs | classroom/serializers.py:103-115 | a username list is valid iff every name picks exactly one user of the field's role; the result is exactly the users of that role named in the list, and a failure names the offending username |
| Serializers.CreateCourse | classroom/serializers.py:128-144 | a course is created iff the title is non-blank, at most 255 characters and free of NUL characters, the description is non-blank and free of NUL characters, and both lists are valid; it gets a fresh id, and its teachers are exactly the creator plus the named Teachers, its students exactly the named Students (an absent list is empty); nothing else in the store changes |
| Serializers.CreateCourseRoles | classroom/serializers.py:103-115 | a created course keeps the store well-formed; every student is a Student, and every teacher is a Teacher when the creator is one |
| Views.Refusal | classroom/views.py:17-20 | a refused permission check answers 500 iff a class raised, 401 iff the anonymous user was denied, and 403 iff an authenticated user was denied |
| Views.AddMemberRequest | classroom/views.py:27-44 | a refused add-member request changes nothing and answers the refusal status; an allowed POST runs the handler; no other method changes the store; an allowed PUT, PATCH or DELETE is 405 (and nothing else is), an allowed GET or HEAD reaches list() and fails with 500, an allowed OPTIONS is 200 |
| Views.DeleteMemberRequest | classroom/views.py:47-65 | a refused delete-member request changes nothing and answers the refusal status; an allowed DELETE runs the handler; no other method changes the store; an allowed OPTIONS is 200 and every other allowed method is 405 (and nothing else is) |
| Views.CourseRequest | classroom/views.py:15-24 | a refused request answers the refusal status; a course is created only by a POST to `course/`, as the serializer's create with the requester as creator, and an allowed such POST either creates or answers 400, the latter iff the serializer rejects the payload; a safe method never changes the store, and a GET or HEAD of `course/<pk>/` is 200 iff the course exists, else 404; 405 iff allowed and the route does not map the method (POST on `course/<pk>/`, PUT, PATCH or DELETE on `course/`); an update or destroy is handed on iff allowed and sent to `course/<pk>/` |
| Views.ChoiceRolesNeverBadRequest | classroom/models.py:6-11 | while every stored role is one of the two choices, deleting a member never answers 400 and an added member always lands in a membership table |
| Views.FindUser | classroom/views.py:38 | finds the user holding the username, reports no user iff none holds it, and never finds several while usernames are unique |
| Views.AddMember | classroom/views.py:35-44 | 200 iff the course and the user exist (404 when either is missing); only that course's membership changes, the user joins the table of their role and no other, and any other role changes nothing |
| Views.DeleteMember | classroom/views.py:55-65 | a Student leaves the student table with 200; a Teacher gets 403 "You can't delete Teacher" and any other role 400 "Incorrect data", both with the store unchanged |
| Views.AddMemberIdempotent | classroom/views.py:39-42 | adding a member twice is the same as adding them once |
| Views.AddMemberKeepsWellFormed | classroom/views.py:35-44 | adding a member keeps the store well-formed |
| Views.DeleteMemberKeepsWellFormed | classroom/views.py:55-65 | deleting a member keeps the store well-formed |
| Views.AddThenDeleteStudent | classroom/views.py:35-65 | deleting a Student just added to a course gives back the original store |
| Views.MembershipChangeNeedsCourseTeacher | classroom/views.py:27-65 | a membership request changes the store only when it is a POST to add-member or a DELETE to delete-member, and its requester is a Teacher in the teacher table of the path's course |
| Views.LectureLookup | classroom/views.py:81-94 | a lecture is found iff it belongs to the path's course; a missing course raises |
| Views.HomeworkLookup | classroom/views.py:110-123 | a homework is found iff it belongs to the path's lecture; a missing lecture raises |
| Views.HomeworkSolutionsAlwaysCrash | classroom/views.py:126-139 | on its own route the homework-solutions lookup always raises, because the route captures no lecture id |
| Views.CreateLecture | classroom/views.py:77-78 | a lecture is saved iff the path's course exists; it belongs to that course, gets a fresh id, and the store stays well-formed |
| Views.CreateHomework | classroom/views.py:106-107 | a homework is saved iff the path's lecture exists; it belongs to that lecture, gets a fresh id, and the store stays well-formed |
| Views.CreateCommentary | classroom/views.py:204-205 | a commentary is saved iff the path's mark exists, with the requester as author; the store stays well-formed |
| Views.SaveSolutionAsWritten | classroom/views.py:151-152 | the save as written always fails with a server error |
| Views.CreateSolution | classroom/views.py:151-152 | a solution is saved iff the path's homework exists, with the requester as author; the store stays well-formed |
| Views.SecondSolutionRefused | classroom/views.py:142-152 | after a student's solution is saved, that student's next create for the same homework is never allowed, and is denied when the saved one was their first |
| Views.AuthorizedCreateKeepsOneSolution | classroom/views.py:142-152 | a solution create the permission list allows keeps every author at one solution per homework |
| Views.SaveMarkAsWritten | classroom/views.py:177-178 | the save as written always fails with a server error |
| Views.CreateMark | classroom/views.py:177-178 | a mark is saved iff the value fits a small integer (else 400), the solution exists and has no mark yet; the requester is the marking user, the value defaults to 0, and the store stays well-formed |
| Views.SecondMarkRefused | classroom/models.py:71 | once a solution has a mark, grading it again is refused |
| Views.CreatedCourseHasCreatorAsTeacher | classroom/views.py:15-24 | a request to the course viewset creates a course only when it is a POST by a Teacher, who is then in the new course's teacher table |

## Left out

- HTTP routing, URL parsing, JWT authentication, settings and migrations: a request arrives as (user, method, path ids).
- Response bodies: serializer output, nested read-only fields and DRF's error texts. Replies keep the status and the two literal payloads of the delete view.
- Permissions.UserIsCourseMember: the `Q(...)` lookup at classroom/permissions.py:63-68 uses `related_lectures`, `related_homework` and `related_solution`, but `classroom/models.py` declares the related names `lecture`, `homework` and `solution`. As written the lookup raises FieldError, which nothing catches, so every request that reaches this class is a 500. The model follows the evidently intended lookup over the declared relations.
- Nested read-only serializer fields (classroom/serializers.py:32, 45, 71, 86, 101) use the same kind of undeclared `related_*` source names. Reading such a source fails, and because the fields are read-only and not required, the field is left out of the response rather than raising. Response bodies are not modelled.
- Permissions.Resolve: the lookup is modelled as a set of distinct courses. With the names corrected and no `.distinct()`, the outer joins yield one row per lecture, homework and solution path, so a course with two lectures already matches twice on `pk=course_id` alone. The `get()` then raises MultipleObjectsReturned, which classroom/permissions.py:69-70 turns into a denial. That duplication is not modelled.
- Permissions.Resolve: an id naming no stored row adds no alternative, as the OR lookup in the code does. A stricter rule, where every supplied id must lead to the same course, is not what the code does, so it is not modelled.
- Absent path ids: `view.kwargs.get(..., False)` looks up primary key 0, which names no row; the model treats an absent id as contributing no course.
- Views.Refusal: a denied anonymous request is 401. This depends on the authentication classes in the project settings, which are not part of this model.
- `has_object_permission`: no view overrides it, so it always allows and is left out.
- List endpoints, retrieve, update and partial update: these read or overwrite rows through DRF generics and enforce no rule beyond the permission lists and the parent filters above.
- File upload of lectures, the homework deadline and creation timestamps: no rule depends on them.
- Ordering by `create_date`: the model uses sets and maps, and no permission or handler depends on order.
- Concurrency and transactions: each request is one atomic step on the store. Two concurrent solution creates can both pass the permission list and leave two solutions by one author for one homework; the model keeps that store representable, and `Permissions.StudentHasNoSolution` then raises as the code does.
- Mark upsert and a cross-table integrity validator: `classroom/` contains no such code. The model follows the code: a second mark for a solution is refused by the one-to-one constraint (`Views.CreateMark`).
- Serializers.ResolveSlugs: several users with one username would make DRF's slug lookup raise rather than fail validation. Stored usernames are unique (`UsernamesUnique`), so this case cannot arise and the model refuses it as a validation error.
- Views.CourseRequest: an update or destroy on `course/<pk>/` comes back as `DetailWrite` and is not carried out there; destroy is `Cascade.DeleteRecord`, and update has no rule beyond the permission list (see the line above on update).
- Views.AddMemberRequest: the 500 for GET and HEAD is the assertion in DRF's GenericAPIView.get_queryset, since the view declares neither `queryset` nor `get_queryset`; DRF is not part of this model.
- Serializers.CreateCourse: CharField trims surrounding whitespace before validating, so a title of spaces is blank and a stored title is trimmed. Trimming is not modelled; payload strings are taken as already trimmed.
- Views.CreateLecture, Views.CreateHomework, Views.CreateSolution, Views.CreateCommentary: the serializer's field validation of these payloads (title length, blank strings, the lecture's file field) is taken as passed. These members model what perform_create saves and the database errors it meets; only the course payload and the mark value are validated in the model.
- Integer width of primary keys: ids are unbounded integers; only the mark value's 16-bit range is modelled.

## Findings

| source | as written | input that shows it | evidently intended | confidence | as-written member | corrected member |
|---|---|---|---|---|---|---|
| classroom/views.py:152 | the solution save passes `course_id`, which is not a field of Solution, so creating the model raises TypeError | any allowed POST to `course/1/homework/2/solution-add/` with a valid `solution` text | save with the requester as `user` and the path's homework, without `course_id` | high, not executed | Views.SaveSolutionAsWritten | Views.CreateSolution |
| classroom/views.py:178 | the mark save passes `creator` and `course_id`, which are not fields of Mark, and never sets the column `user` that holds the marking user | any allowed POST to `course/1/solution/3/mark-add/` by a member Teacher | save with the requester as `user` and the path's solution | high, not executed | Views.SaveMarkAsWritten | Views.CreateMark |

=== FILE: cascade.dfy ===
/** Deletion with on_delete=CASCADE on every foreign key of classroom/models.py:
    deleting a record deletes every record whose foreign key names it, level
    by level, and a deleted user also leaves every membership table. */
module Cascade {
  import opened Models

  /** A set of primary keys per table. */
  datatype Ids = Ids(
    users: set<Id>,
    courses: set<Id>,
    lectures: set<Id>,
    homeworks: set<Id>,
    solutions: set<Id>,
    marks: set<Id>,
    commentaries: set<Id>)

  const NoIds := Ids({}, {}, {}, {}, {}, {}, {})

  datatype Table = Users | Courses | Lectures | Homeworks | Solutions | Marks | Commentaries

  /** The single record a delete request names. */
  function Only(t: Table, id: Id): Ids {
    match t
    case Users => NoIds.(users := {id})
    case Courses => NoIds.(courses := {id})
    case Lectures => NoIds.(lectures := {id})
    case Homeworks => NoIds.(homeworks := {id})
    case Solutions => NoIds.(solutions := {id})
    case Marks => NoIds.(marks := {id})
    case Commentaries => NoIds.(commentaries := {id})
  }

  /** Every record the deletion of the roots reaches: a record is reached when
      it is a root or one of its foreign keys names a reached record. The
      tables are visited from the top of the ownership tree down, so each
      level only looks at the levels above it. */
  function Reach(st: Store, roots: Ids): Ids {
    var ls := set l | l in st.lectures &&
      (l in roots.lectures || st.lectures[l].course in roots.courses);
    var hs := set h | h in st.homeworks &&
      (h in roots.homeworks || st.homeworks[h].lecture in ls);
    var ss := set s | s in st.solutions &&
      (s in roots.solutions || st.solutions[s].homework in hs || st.solutions[s].author in roots.users);
    var ms := set m | m in st.marks &&
      (m in roots.marks || st.marks[m].solution in ss || st.marks[m].grader in roots.users);
    var xs := set x | x in st.commentaries &&
      (x in roots.commentaries || st.commentaries[x].mark in ms || st.commentaries[x].author in roots.users);
    Ids(roots.users, roots.courses, ls, hs, ss, ms, xs)
  }

  /** A course row after the users in `gone` left both membership tables. */
  function WithoutUsers(c: Course, gone: set<Id>): Course {
    c.(teachers := c.teachers - gone, students := c.students - gone)
  }

  /** Delete the roots and everything they reach. */
  function Delete(st: Store, roots: Ids): (st': Store)
    ensures WellFormed(st) ==> WellFormed(st')
    ensures OneSolutionPerAuthor(st) ==> OneSolutionPerAuthor(st')
    ensures st'.users.Keys == st.users.Keys - roots.users
    ensures st'.courses.Keys == st.courses.Keys - roots.courses
    ensures forall l :: l in roots.lectures ==> l !in st'.lectures
    ensures forall h :: h in roots.homeworks ==> h !in st'.homeworks
    ensures forall s :: s in roots.solutions ==> s !in st'.solutions
    ensures forall m :: m in roots.marks ==> m !in st'.marks
    ensures forall x :: x in roots.commentaries ==> x !in st'.commentaries
    ensures st'.lectures.Keys <= st.lectures.Keys && st'.homeworks.Keys <= st.homeworks.Keys
    ensures st'.solutions.Keys <= st.solutions.Keys && st'.marks.Keys <= st.marks.Keys
    ensures st'.commentaries.Keys <= st.commentaries.Keys
    // surviving rows are unchanged, except that deleted users leave the
    // membership tables of the surviving courses
    ensures forall u :: u in st'.users ==> st'.users[u] == st.users[u]
    ensures forall c :: c in st'.courses ==>
      && st'.courses[c].title == st.courses[c].title
      && st'.courses[c].description == st.courses[c].description
      && st'.courses[c].teachers == st.courses[c].teachers - roots.users
      && st'.courses[c].students == st.courses[c].students - roots.users
    ensures forall l :: l in st'.lectures ==> st'.lectures[l] == st.lectures[l]
    ensures forall h :: h in st'.homeworks ==> st'.homeworks[h] == st.homeworks[h]
    ensures forall s :: s in st'.solutions ==> st'.solutions[s] == st.solutions[s]
    ensures forall m :: m in st'.marks ==> st'.marks[m] == st.marks[m]
    ensures forall x :: x in st'.commentaries ==> st'.commentaries[x] == st.commentaries[x]
  {
    var d := Reach(st, roots);
    Store(
      st.users - d.users,
      map c | c in st.courses && c !in d.courses :: WithoutUsers(st.courses[c], d.users),
      st.lectures - d.lectures,
      st.homeworks - d.homeworks,
      st.solutions - d.solutions,
      st.marks - d.marks,
      st.commentaries - d.commentaries)
  }

  /** Deleting one record, as a single delete() call does. */
  function DeleteRecord(st: Store, t: Table, id: Id): (st': Store)
    ensures WellFormed(st) ==> WellFormed(st')
  {
    Delete(st, Only(t, id))
  }

  /** The CASCADE rule, table by table: a record survives exactly when it is
      not a root and every record its foreign keys name survives. */
  lemma CascadeRule(st: Store, roots: Ids)
    requires WellFormed(st)
    ensures var st' := Delete(st, roots);
      && (forall l :: l in st'.lectures <==>
            l in st.lectures && l !in roots.lectures && st.lectures[l].course in st'.courses)
      && (forall h :: h in st'.homeworks <==>
            h in st.homeworks && h !in roots.homeworks && st.homeworks[h].lecture in st'.lectures)
      && (forall s :: s in st'.solutions <==>
            s in st.solutions && s !in roots.solutions
            && st.solutions[s].homework in st'.homeworks && st.solutions[s].author in st'.users)
      && (forall m :: m in st'.marks <==>
            m in st.marks && m !in roots.marks
            && st.marks[m].solution in st'.solutions && st.marks[m].grader in st'.users)
      && (forall x :: x in st'.commentaries <==>
            x in st.commentaries && x !in roots.commentaries
            && st.commentaries[x].mark in st'.marks && st.commentaries[x].author in st'.users)
  {
    var st' := Delete(st, roots);
    var d := Reach(st, roots);
    assert st'.lectures == st.lectures - d.lectures;
    assert st'.homeworks == st.homeworks - d.homeworks;
    assert st'.solutions == st.solutions - d.solutions;
    assert st'.marks == st.marks - d.marks;
    assert st'.commentaries == st.commentaries - d.commentaries;
  }

  /** Deleting a course deletes its lectures, and no surviving lecture
      names it. */
  lemma DeleteCourseRemovesLectures(st: Store, c: Id)
    requires WellFormed(st)
    ensures var st' := DeleteRecord(st, Courses, c);
      && c !in st'.courses
      && (forall l :: l in st.lectures && st.lectures[l].course == c ==> l !in st'.lectures)
      && (forall l :: l in st.lectures && st.lectures[l].course != c ==> l in st'.lectures)
  {
    CascadeRule(st, Only(Courses, c));
  }

  /** Deleting a user removes the solutions they wrote, the marks they gave
      and the commentaries they wrote, and takes them out of every course. */
  lemma DeleteUserRemovesAuthored(st: Store, u: Id)
    requires WellFormed(st)
    ensures var st' := DeleteRecord(st, Users, u);
      && u !in st'.users
      && (forall s :: s in st'.solutions ==> st'.solutions[s].author != u)
      && (forall m :: m in st'.marks ==> st'.marks[m].grader != u)
      && (forall x :: x in st'.commentaries ==> st'.commentaries[x].author != u)
      && (forall c :: c in st'.courses ==> u !in st'.courses[c].teachers && u !in st'.courses[c].students)
  {
  }
}

=== FILE: models.dfy ===
/** The stored records of the classroom app (classroom/models.py) and the
    referential integrity the database keeps between them. */
module Models {

  datatype Option<+T> = None | Some(value: T)

  /** Surrogate primary keys, as the database hands them out. */
  type Id = int

  /** The role column is a plain string whose field offers two choices; the
      choices are not enforced by the database, and the views branch on
      values that are neither, so any other tag is representable. */
  datatype RoleValue = Student | Teacher | Unlisted(tag: string)

  /** The column holds one string per role: the two choice strings are
      always Student and Teacher, never an other tag. */
  type Role = r: RoleValue | r.Unlisted? ==> r.tag != "Student" && r.tag != "Teacher" witness Student

  predicate IsChoice(r: Role) {
    r.Student? || r.Teacher?
  }

  datatype User = User(username: string, role: Role)

  /** A course with its two many-to-many membership tables. */
  datatype Course = Course(title: string, description: string, teachers: set<Id>, students: set<Id>)

  datatype Lecture = Lecture(title: string, description: string, course: Id)

  datatype Homework = Homework(title: string, description: string, lecture: Id)

  datatype Solution = Solution(text: string, author: Id, homework: Id)

  datatype Mark = Mark(value: int, grader: Id, solution: Id)

  datatype Commentary = Commentary(text: string, author: Id, mark: Id)

  /** The default of the mark's value column. */
  const DefaultMarkValue: int := 0

  /** Range of a SmallIntegerField. */
  const SmallIntMin: int := -32768
  const SmallIntMax: int := 32767

  /** One table per model, keyed by primary key. */
  datatype Store = Store(
    users: map<Id, User>,
    courses: map<Id, Course>,
    lectures: map<Id, Lecture>,
    homeworks: map<Id, Homework>,
    solutions: map<Id, Solution>,
    marks: map<Id, Mark>,
    commentaries: map<Id, Commentary>)

  // ---------------------------------------------------------------------
  // Well-formedness: every foreign key names a stored record
  // ---------------------------------------------------------------------

  predicate MembersExist(st: Store) {
    forall c :: c in st.courses ==>
      st.courses[c].teachers <= st.users.Keys && st.courses[c].students <= st.users.Keys
  }

  predicate LecturesOwned(st: Store) {
    forall l :: l in st.lectures ==> st.lectures[l].course in st.courses
  }

  predicate HomeworksOwned(st: Store) {
    forall h :: h in st.homeworks ==> st.homeworks[h].lecture in st.lectures
  }

  predicate SolutionsOwned(st: Store) {
    forall s :: s in st.solutions ==>
      st.solutions[s].homework in st.homeworks && st.solutions[s].author in st.users
  }

  predicate MarksOwned(st: Store) {
    forall m :: m in st.marks ==>
      st.marks[m].solution in st.solutions && st.marks[m].grader in st.users
  }

  predicate CommentariesOwned(st: Store) {
    forall x :: x in st.commentaries ==>
      st.commentaries[x].mark in st.marks && st.commentaries[x].author in st.users
  }

  /** The one-to-one field: no two marks share a solution. */
  predicate OneMarkPerSolution(st: Store) {
    forall m1, m2 :: m1 in st.marks && m2 in st.marks && st.marks[m1].solution == st.marks[m2].solution ==> m1 == m2
  }

  /** The user model's username column is unique. */
  predicate UsernamesUnique(st: Store) {
    forall u, v :: u in st.users && v in st.users && st.users[u].username == st.users[v].username ==> u == v
  }

  predicate MarkValuesFit(st: Store) {
    forall m :: m in st.marks ==> SmallIntMin <= st.marks[m].value <= SmallIntMax
  }

  predicate WellFormed(st: Store) {
    && MembersExist(st)
    && LecturesOwned(st)
    && HomeworksOwned(st)
    && SolutionsOwned(st)
    && MarksOwned(st)
    && CommentariesOwned(st)
    && OneMarkPerSolution(st)
    && UsernamesUnique(st)
    && MarkValuesFit(st)
  }

  /** Every stored user carries one of the two offered roles. */
  predicate RolesAreChoices(st: Store) {
    forall u :: u in st.users ==> IsChoice(st.users[u].role)
  }

  /** No author holds two solutions for one homework. The schema does not
      enforce this (there is no unique constraint on the pair); only the
      solution-create permission list keeps it, see
      Views.AuthorizedCreateKeepsOneSolution. */
  predicate OneSolutionPerAuthor(st: Store) {
    forall s1, s2 ::
      (&& s1 in st.solutions && s2 in st.solutions
       && st.solutions[s1].homework == st.solutions[s2].homework
       && st.solutions[s1].author == st.solutions[s2].author) ==> s1 == s2
  }

  /** Some mark is stored for solution `s`. */
  predicate HasMark(st: Store, s: Id) {
    exists m :: m in st.marks && st.marks[m].solution == s
  }

  // ---------------------------------------------------------------------
  // Fresh primary keys
  // ---------------------------------------------------------------------

  predicate IsMax(k: Id, ks: set<Id>) {
    k in ks && forall j :: j in ks ==> j <= k
  }

  lemma {:induction false} MaxExists(ks: set<Id>, y: Id)
    requires y in ks
    ensures exists k :: IsMax(k, ks)
    decreases |ks|
  {
    var rest := ks - {y};
    if z :| z in rest {
      MaxExists(rest, z);
      var k :| IsMax(k, rest);
      assert forall j :: j in ks ==> j == y || j in rest;
      if y <= k {
        assert IsMax(k, ks);
      } else {
        assert IsMax(y, ks);
      }
    } else {
      assert forall j :: j in ks && j != y ==> j in rest;
      assert forall j :: j in ks ==> j == y;
      assert IsMax(y, ks);
    }
  }

  lemma MaxOfNonEmpty(ks: set<Id>)
    requires exists y :: y in ks
    ensures exists k :: IsMax(k, ks)
  {
    var y :| y in ks;
    MaxExists(ks, y);
  }

  /** The key an auto-increment column assigns next: positive and above
      every key in use. */
  function FreshKey(ks: set<Id>): (k: Id)
    ensures k !in ks && k > 0
    ensures forall j :: j in ks ==> j < k
  {
    if exists y :: y in ks then
      MaxOfNonEmpty(ks);
      var m :| IsMax(m, ks);
      if m < 1 then 1 else m + 1
    else
      1
  }
}

=== FILE: permissions.dfy ===
/** The permission classes of classroom/permissions.py, each a pure function
    of the store and the request, and the hierarchy resolution that
    UserIsCourseMember performs. */
module Permissions {
  import opened Models

  datatype Method = GET | HEAD | OPTIONS | POST | PUT | PATCH | DELETE

  /** DRF's SAFE_METHODS. */
  predicate IsSafe(m: Method) {
    m.GET? || m.HEAD? || m.OPTIONS?
  }

  /** The keyword arguments a route can capture. */
  datatype PathKey = CourseKey | LectureKey | HomeworkKey | SolutionKey | MarkKey | PkKey

  type PathIds = map<PathKey, Id>

  /** An authenticated requester: its primary key and its role column. */
  datatype Requester = Requester(id: Id, role: Role)

  /** `user` is None for the anonymous user. */
  datatype Request = Request(user: Option<Requester>, verb: Method, path: PathIds)

  /** What a has_permission call comes to: a truthy answer, a falsy one
      (False or None), or an exception escaping it. */
  datatype Verdict = Allow | Deny | Error

  // ---------------------------------------------------------------------
  // Hierarchy resolution
  // ---------------------------------------------------------------------

  /** The course of a lecture, walking its foreign key upwards. */
  function CourseOfLecture(st: Store, l: Id): Option<Id> {
    if l in st.lectures && st.lectures[l].course in st.courses then Some(st.lectures[l].course) else None
  }

  function CourseOfHomework(st: Store, h: Id): Option<Id> {
    if h in st.homeworks then CourseOfLecture(st, st.homeworks[h].lecture) else None
  }

  function CourseOfSolution(st: Store, s: Id): Option<Id> {
    if s in st.solutions then CourseOfHomework(st, st.solutions[s].homework) else None
  }

  function CourseItself(st: Store, c: Id): Option<Id> {
    if c in st.courses then Some(c) else None
  }

  /** The course reached from one path key, when the key is supplied. */
  function EntryFor(found: Option<Id>): seq<Id> {
    if found.Some? then [found.value] else []
  }

  /** The course each supplied path id leads to, in the order of the lookup's
      four alternatives; an absent id, or one naming no stored record,
      contributes nothing. */
  function Candidates(st: Store, p: PathIds): (cs: seq<Id>)
    ensures forall i :: 0 <= i < |cs| ==> cs[i] in st.courses
  {
    (if CourseKey in p then EntryFor(CourseItself(st, p[CourseKey])) else [])
    + (if LectureKey in p then EntryFor(CourseOfLecture(st, p[LectureKey])) else [])
    + (if HomeworkKey in p then EntryFor(CourseOfHomework(st, p[HomeworkKey])) else [])
    + (if SolutionKey in p then EntryFor(CourseOfSolution(st, p[SolutionKey])) else [])
  }

  /** The lookup succeeds only when the supplied ids lead to one course. */
  function Resolve(st: Store, p: PathIds): (r: Option<Id>)
    ensures r.Some? ==> r.value in st.courses
  {
    var cs := Candidates(st, p);
    if |cs| > 0 && forall i :: 0 <= i < |cs| ==> cs[i] == cs[0] then Some(cs[0]) else None
  }

  // The same courses read from the other end: the join the lookup's Q
  // expression describes, from a course down through its lectures, their
  // homework and that homework's solutions.

  ghost predicate SolutionBranch(st: Store, p: PathIds, h: Id) {
    exists s :: s in st.solutions && st.solutions[s].homework == h && SolutionKey in p && p[SolutionKey] == s
  }

  ghost predicate HomeworkBranch(st: Store, p: PathIds, l: Id) {
    exists h :: h in st.homeworks && st.homeworks[h].lecture == l
      && ((HomeworkKey in p && p[HomeworkKey] == h) || SolutionBranch(st, p, h))
  }

  ghost predicate LectureBranch(st: Store, p: PathIds, c: Id) {
    exists l :: l in st.lectures && st.lectures[l].course == c
      && ((LectureKey in p && p[LectureKey] == l) || HomeworkBranch(st, p, l))
  }

  /** A stored course matches when its pk is the path course id or when a
      record of its subtree carries the path id of its level. */
  ghost predicate Matches(st: Store, p: PathIds, c: Id) {
    c in st.courses && ((CourseKey in p && p[CourseKey] == c) || LectureBranch(st, p, c))
  }

  /** The distinct courses the lookup finds. */
  ghost function CourseCandidates(st: Store, p: PathIds): set<Id> {
    set c | c in st.courses && Matches(st, p, c)
  }

  /** Walking up from each supplied id finds exactly the courses the join
      finds. */
  lemma CandidatesAreMatches(st: Store, p: PathIds)
    ensures forall c :: c in Candidates(st, p) <==> c in CourseCandidates(st, p)
  {
    var cs := Candidates(st, p);
    forall c | c in cs
      ensures Matches(st, p, c)
    {
      if CourseKey in p && CourseItself(st, p[CourseKey]) == Some(c) {
      } else if LectureKey in p && CourseOfLecture(st, p[LectureKey]) == Some(c) {
        var l := p[LectureKey];
        assert st.lectures[l].course == c;
      } else if HomeworkKey in p && CourseOfHomework(st, p[HomeworkKey]) == Some(c) {
        var h := p[HomeworkKey];
        var l := st.homeworks[h].lecture;
        assert HomeworkBranch(st, p, l);
      } else {
        assert SolutionKey in p && CourseOfSolution(st, p[SolutionKey]) == Some(c);
        var s := p[SolutionKey];
        var h := st.solutions[s].homework;
        var l := st.homeworks[h].lecture;
        assert SolutionBranch(st, p, h);
        assert HomeworkBranch(st, p, l);
      }
    }
    forall c | Matches(st, p, c)
      ensures c in cs
    {
      if CourseKey in p && p[CourseKey] == c {
        assert CourseItself(st, p[CourseKey]) == Some(c);
      } else {
        var l :| l in st.lectures && st.lectures[l].course == c
          && ((LectureKey in p && p[LectureKey] == l) || HomeworkBranch(st, p, l));
        if LectureKey in p && p[LectureKey] == l {
          assert CourseOfLecture(st, l) == Some(c);
        } else {
          var h :| h in st.homeworks && st.homeworks[h].lecture == l
            && ((HomeworkKey in p && p[HomeworkKey] == h) || SolutionBranch(st, p, h));
          if HomeworkKey in p && p[HomeworkKey] == h {
            assert CourseOfHomework(st, h) == Some(c);
          } else {
            var s :| s in st.solutions && st.solutions[s].homework == h && SolutionKey in p && p[SolutionKey] == s;
            assert CourseOfSolution(st, s) == Some(c);
          }
        }
      }
    }
  }

  /** Resolution succeeds exactly when the lookup finds a single distinct
      course, and then yields that course. */
  lemma {:induction false} ResolveIsUniqueMatch(st: Store, p: PathIds)
    ensures Resolve(st, p).Some? <==> |CourseCandidates(st, p)| == 1
    ensures Resolve(st, p).Some? ==> CourseCandidates(st, p) == {Resolve(st, p).value}
  {
    var cs := Candidates(st, p);
    var found := CourseCandidates(st, p);
    CandidatesAreMatches(st, p);
    if |cs| == 0 {
      assert forall c :: c !in found;
      assert found == {};
    } else if forall i :: 0 <= i < |cs| ==> cs[i] == cs[0] {
      assert forall c :: c in found <==> c == cs[0];
      assert found == {cs[0]};
    } else {
      var i :| 0 <= i < |cs| && cs[i] != cs[0];
      assert cs[0] in found && cs[i] in found;
      TwoElements(found, cs[0], cs[i]);
    }
  }

  lemma TwoElements(s: set<Id>, a: Id, b: Id)
    requires a in s && b in s && a != b
    ensures |s| >= 2
  {
    assert {a, b} <= s;
    assert |s| == |{a, b}| + |s - {a, b}|;
  }

  /** A course id and a lecture id that belong to different stored courses
      never resolve. */
  lemma MismatchedCourseAndLectureDenied(st: Store, p: PathIds)
    requires CourseKey in p && p[CourseKey] in st.courses
    requires LectureKey in p && p[LectureKey] in st.lectures
    requires st.lectures[p[LectureKey]].course in st.courses
    requires st.lectures[p[LectureKey]].course != p[CourseKey]
    ensures Resolve(st, p) == None
  {
    var cs := Candidates(st, p);
    assert cs[0] == p[CourseKey];
    assert cs[1] == st.lectures[p[LectureKey]].course;
  }

  /** A lecture id naming no stored lecture is ignored: a valid course id
      beside it still resolves to that course. */
  lemma UnknownLectureIgnored(st: Store, c: Id, l: Id)
    requires c in st.courses && l !in st.lectures
    ensures Resolve(st, map[CourseKey := c, LectureKey := l]) == Some(c)
  {
    var p := map[CourseKey := c, LectureKey := l];
    assert Candidates(st, p) == [c];
  }

  // ---------------------------------------------------------------------
  // The permission classes
  // ---------------------------------------------------------------------

  /** SafeOnly answers True for a safe method and falls off its end, None,
      otherwise. */
  function SafeOnly(req: Request): (v: Verdict)
    ensures v == Allow <==> IsSafe(req.verb)
    ensures v != Error
  {
    if req.verb in {GET, HEAD, OPTIONS} then Allow else Deny
  }

  /** Reading `role` off the anonymous user raises AttributeError. */
  function UserIsTeacher(req: Request): (v: Verdict)
    ensures v == Error <==> req.user.None?
    ensures v == Allow <==> req.user.Some? && req.user.value.role == Teacher
  {
    match req.user
    case None => Error
    case Some(u) => if u.role == Teacher then Allow else Deny
  }

  function UserIsStudent(req: Request): (v: Verdict)
    ensures v == Error <==> req.user.None?
    ensures v == Allow <==> req.user.Some? && req.user.value.role == Student
    ensures v == Allow ==> UserIsTeacher(req) == Deny
  {
    match req.user
    case None => Error
    case Some(u) => if u.role == Student then Allow else Deny
  }

  /** Some stored solution for homework `h` has `author` in its user column. */
  predicate WroteSolutionFor(st: Store, h: Id, author: Id) {
    exists s :: s in st.solutions && st.solutions[s].homework == h && st.solutions[s].author == author
  }

  /** Two distinct stored solutions for homework `h` have `author` in their
      user column. */
  predicate WroteTwoSolutionsFor(st: Store, h: Id, author: Id) {
    exists s1, s2 ::
      (&& s1 in st.solutions && s2 in st.solutions && s1 != s2
       && st.solutions[s1].homework == h && st.solutions[s1].author == author
       && st.solutions[s2].homework == h && st.solutions[s2].author == author)
  }

  /** The homework id is indexed out of the path, so a route without one
      raises KeyError. The requester's solution is then fetched with get(),
      of whose exceptions only the not-found one is caught: no solution
      allows, one denies, and two raise MultipleObjectsReturned. */
  function StudentHasNoSolution(st: Store, req: Request): (v: Verdict)
    ensures v == Error <==>
      HomeworkKey !in req.path
      || (req.user.Some? && WroteTwoSolutionsFor(st, req.path[HomeworkKey], req.user.value.id))
    ensures v == Allow <==>
      HomeworkKey in req.path
      && (req.user.None? || !WroteSolutionFor(st, req.path[HomeworkKey], req.user.value.id))
    ensures v == Deny <==>
      (&& HomeworkKey in req.path && req.user.Some?
       && WroteSolutionFor(st, req.path[HomeworkKey], req.user.value.id)
       && !WroteTwoSolutionsFor(st, req.path[HomeworkKey], req.user.value.id))
    ensures OneSolutionPerAuthor(st) && HomeworkKey in req.path ==> v != Error
  {
    if HomeworkKey !in req.path then Error
    else if req.user.None? then Allow  // user_id is None: no author column matches
    else
      var h, a := req.path[HomeworkKey], req.user.value.id;
      if !WroteSolutionFor(st, h, a) then
        assert !WroteTwoSolutionsFor(st, h, a);
        Allow
      else if WroteTwoSolutionsFor(st, h, a) then Error
      else Deny
  }

  /** The solution id is indexed out of the path (KeyError without one), and
      filtering by the anonymous user raises TypeError; a solution id naming
      no stored solution is a plain False. */
  function UserSolutionOwner(st: Store, req: Request): (v: Verdict)
    ensures v == Error <==> SolutionKey !in req.path || req.user.None?
    ensures v == Allow <==>
      (&& SolutionKey in req.path && req.user.Some?
       && req.path[SolutionKey] in st.solutions
       && st.solutions[req.path[SolutionKey]].author == req.user.value.id)
  {
    if SolutionKey !in req.path then Error
    else if req.user.None? then Error
    else
      var s := req.path[SolutionKey];
      if s in st.solutions && st.solutions[s].author == req.user.value.id then Allow else Deny
  }

  /** Membership is split by role: a Teacher counts only in the teacher
      table and a Student only in the student table. */
  predicate InRoleTable(c: Course, u: Requester) {
    match u.role
    case Teacher => u.id in c.teachers
    case Student => u.id in c.students
    case Unlisted(_) => false
  }

  /** The resolved course must be unique; an anonymous requester has no role
      (AttributeError, caught) and any other role falls through to None. */
  function UserIsCourseMember(st: Store, req: Request): (v: Verdict)
    ensures v != Error
    ensures v == Allow ==> req.user.Some? && IsChoice(req.user.value.role)
    ensures v == Allow <==>
      && req.user.Some?
      && |CourseCandidates(st, req.path)| == 1
      && forall c :: c in CourseCandidates(st, req.path) ==> InRoleTable(st.courses[c], req.user.value)
  {
    ResolveIsUniqueMatch(st, req.path);
    match Resolve(st, req.path)
    case None => Deny
    case Some(c) =>
      match req.user
      case None => Deny
      case Some(u) =>
        if u.role == Teacher then (if u.id in st.courses[c].teachers then Allow else Deny)
        else if u.role == Student then (if u.id in st.courses[c].students then Allow else Deny)
        else Deny
  }
}

=== FILE: policy.dfy ===
/** The permission_classes of each view in classroom/views.py, as expressions
    over the permission classes, and the route table of classroom/urls.py
    that says which path ids each view receives. */
module Policy {
  import opened Models
  import opened Permissions

  /** The permission classes a list may name. */
  datatype Check =
    | IsAuthenticated
    | SafeOnly
    | UserIsTeacher
    | UserIsStudent
    | StudentHasNoSolution
    | UserSolutionOwner
    | UserIsCourseMember

  /** One permission class's answer; IsAuthenticated is DRF's (a user is
      present and authenticated). */
  function Ask(st: Store, c: Check, req: Request): Verdict {
    match c
    case IsAuthenticated => if req.user.Some? then Allow else Deny
    case SafeOnly => Permissions.SafeOnly(req)
    case UserIsTeacher => Permissions.UserIsTeacher(req)
    case UserIsStudent => Permissions.UserIsStudent(req)
    case StudentHasNoSolution => Permissions.StudentHasNoSolution(st, req)
    case UserSolutionOwner => Permissions.UserSolutionOwner(st, req)
    case UserIsCourseMember => Permissions.UserIsCourseMember(st, req)
  }

  /** A permission expression: one class, or DRF's `|` of two. */
  datatype Perm = Atom(check: Check) | Or(left: Perm, right: Perm)

  /** Python's `and` between two permission classes. A class object is
      truthy, so the expression evaluates to its right operand and the left
      one is never consulted. */
  function ClassAnd(a: Perm, b: Perm): (p: Perm)
    ensures forall st: Store, req: Request :: Eval(st, p, req) == Eval(st, b, req)
  {
    b
  }

  /** `|` asks its left operand first and its right one only when the left
      answer is falsy; an exception in either escapes. */
  function Eval(st: Store, p: Perm, req: Request): (v: Verdict)
    ensures p.Or? && Eval(st, p.left, req) == Allow ==> v == Allow
    ensures p.Or? && Eval(st, p.left, req) == Error ==> v == Error
    ensures p.Or? && Eval(st, p.left, req) != Error && Eval(st, p.right, req) != Error ==>
      (v == Allow <==> Eval(st, p.left, req) == Allow || Eval(st, p.right, req) == Allow)
    ensures p.Or? ==>
      (v == Error <==>
         Eval(st, p.left, req) == Error || (Eval(st, p.left, req) == Deny && Eval(st, p.right, req) == Error))
    ensures p.Atom? ==> v == Ask(st, p.check, req)
  {
    match p
    case Atom(c) => Ask(st, c, req)
    case Or(a, b) =>
      var left := Eval(st, a, req);
      if left == Deny then Eval(st, b, req) else left
  }

  /** A permission_classes list is checked in order and the first class that
      does not allow decides: its denial or its exception. */
  function CheckAll(st: Store, ps: seq<Perm>, req: Request): (v: Verdict)
    ensures v == Allow <==> forall i :: 0 <= i < |ps| ==> Eval(st, ps[i], req) == Allow
    ensures v != Allow ==>
      exists i :: (0 <= i < |ps| && Eval(st, ps[i], req) == v
                   && forall j :: 0 <= j < i ==> Eval(st, ps[j], req) == Allow)
    decreases |ps|
  {
    if |ps| == 0 then Allow
    else
      var first := Eval(st, ps[0], req);
      if first != Allow then first
      else
        var rest := CheckAll(st, ps[1..], req);
        assert forall i :: 1 <= i < |ps| ==> ps[i] == ps[1..][i - 1];
        rest
  }

  /** A verdict followed by the rest of a list. */
  function AndThen(first: Verdict, rest: Verdict): Verdict {
    if first != Allow then first else rest
  }

  lemma CheckTwo(st: Store, a: Perm, b: Perm, req: Request)
    ensures CheckAll(st, [a, b], req) == AndThen(Eval(st, a, req), Eval(st, b, req))
  {
    assert [a, b][1..] == [b];
    assert [b][1..] == [];
  }

  lemma CheckThree(st: Store, a: Perm, b: Perm, c: Perm, req: Request)
    ensures CheckAll(st, [a, b, c], req)
         == AndThen(Eval(st, a, req), AndThen(Eval(st, b, req), Eval(st, c, req)))
  {
    assert [a, b, c][1..] == [b, c];
    CheckTwo(st, b, c, req);
  }

  lemma CheckFour(st: Store, a: Perm, b: Perm, c: Perm, d: Perm, req: Request)
    ensures CheckAll(st, [a, b, c, d], req)
         == AndThen(Eval(st, a, req), AndThen(Eval(st, b, req), AndThen(Eval(st, c, req), Eval(st, d, req))))
  {
    assert [a, b, c, d][1..] == [b, c, d];
    CheckThree(st, b, c, d, req);
  }

  datatype View =
    | CourseListDetail
    | CourseAddMember
    | CourseDeleteMember
    | LectureListCreate
    | LectureDetail
    | HomeworkListCreate
    | HomeworkDetail
    | HomeworkSolutions
    | SolutionListCreate
    | SolutionDetail
    | MarkCreate
    | MarkDetail
    | CommentaryCreate

  /** Each view's permission_classes, as written. */
  function Classes(v: View): (ps: seq<Perm>)
    ensures |ps| >= 2 && ps[0] == Atom(IsAuthenticated)
    ensures v != CourseListDetail <==> Atom(UserIsCourseMember) in ps
  {
    match v
    case CourseListDetail => [Atom(IsAuthenticated), Or(Atom(UserIsTeacher), Atom(SafeOnly))]
    case CourseAddMember => [Atom(IsAuthenticated), Atom(UserIsCourseMember), Atom(UserIsTeacher)]
    case CourseDeleteMember => [Atom(IsAuthenticated), Atom(UserIsCourseMember), Atom(UserIsTeacher)]
    case LectureListCreate => [Atom(IsAuthenticated), Atom(UserIsCourseMember), Atom(UserIsTeacher)]
    case LectureDetail => [Atom(IsAuthenticated), Atom(UserIsCourseMember), Or(Atom(UserIsTeacher), Atom(SafeOnly))]
    case HomeworkListCreate => [Atom(IsAuthenticated), Atom(UserIsCourseMember), Atom(UserIsTeacher)]
    case HomeworkDetail => [Atom(IsAuthenticated), Atom(UserIsCourseMember), Or(Atom(UserIsTeacher), Atom(SafeOnly))]
    case HomeworkSolutions => [Atom(IsAuthenticated), Atom(UserIsCourseMember), Atom(UserIsTeacher)]
    case SolutionListCreate =>
      [Atom(IsAuthenticated), Atom(UserIsStudent), Atom(UserIsCourseMember), Atom(StudentHasNoSolution)]
    case SolutionDetail => [Atom(IsAuthenticated), Atom(UserIsCourseMember), OwnerOrTeacher()]
    case MarkCreate => [Atom(IsAuthenticated), Atom(UserIsCourseMember), Atom(UserIsTeacher)]
    case MarkDetail => [Atom(IsAuthenticated), Atom(UserIsCourseMember), OwnerOrTeacher()]
    case CommentaryCreate => [Atom(IsAuthenticated), Atom(UserIsCourseMember), OwnerOrTeacher()]
  }

  /** `(UserIsStudent and UserSolutionOwner) | UserIsTeacher`. */
  function OwnerOrTeacher(): Perm {
    Or(ClassAnd(Atom(UserIsStudent), Atom(UserSolutionOwner)), Atom(UserIsTeacher))
  }

  /** The path ids each view's route captures. The course router's list
      route captures nothing and its detail route captures `pk`. */
  function RouteKeys(v: View): (ks: set<PathKey>)
    ensures PkKey !in ks
    ensures v != CourseListDetail <==> CourseKey in ks
    ensures LectureKey in ks ==> CourseKey in ks
  {
    match v
    case CourseListDetail => {}
    case CourseAddMember => {CourseKey}
    case CourseDeleteMember => {CourseKey}
    case LectureListCreate => {CourseKey}
    case LectureDetail => {CourseKey, LectureKey}
    case HomeworkListCreate => {CourseKey, LectureKey}
    case HomeworkDetail => {CourseKey, LectureKey, HomeworkKey}
    case HomeworkSolutions => {CourseKey, HomeworkKey}
    case SolutionListCreate => {CourseKey, HomeworkKey}
    case SolutionDetail => {CourseKey, HomeworkKey, SolutionKey}
    case MarkCreate => {CourseKey, SolutionKey}
    case MarkDetail => {CourseKey, SolutionKey, MarkKey}
    case CommentaryCreate => {CourseKey, MarkKey}
  }

  predicate Routed(v: View, p: PathIds) {
    p.Keys == RouteKeys(v) || (v == CourseListDetail && p.Keys == {PkKey})
  }

  /** The permission decision DRF reaches for a request to a view. */
  function Authorize(st: Store, v: View, req: Request): Verdict {
    CheckAll(st, Classes(v), req)
  }

  predicate IsMember(st: Store, req: Request) {
    Permissions.UserIsCourseMember(st, req) == Allow
  }

  predicate IsOwner(st: Store, req: Request) {
    Permissions.UserSolutionOwner(st, req) == Allow
  }

  predicate HasRole(req: Request, r: Role) {
    req.user.Some? && req.user.value.role == r
  }

  // ---------------------------------------------------------------------
  // What each view's list comes to
  // ---------------------------------------------------------------------

  /** Every list starts with IsAuthenticated, so the anonymous user is
      denied by every view whatever the other classes would say. */
  lemma AnonymousAlwaysDenied(st: Store, v: View, req: Request)
    requires req.user.None?
    ensures Authorize(st, v, req) == Deny
  {
    var ps := Classes(v);
    assert Eval(st, ps[0], req) == Deny;
    assert ps[0] == Atom(IsAuthenticated);
  }

  /** Course endpoints: an authenticated user may use the safe methods and
      only a Teacher may do anything else. */
  lemma CourseViewRule(st: Store, req: Request)
    requires req.user.Some?
    ensures Authorize(st, CourseListDetail, req) == Allow <==> HasRole(req, Teacher) || IsSafe(req.verb)
    ensures Authorize(st, CourseListDetail, req) != Error
  {
    CheckTwo(st, Atom(IsAuthenticated), Or(Atom(UserIsTeacher), Atom(SafeOnly)), req);
  }

  predicate TeacherOnly(v: View) {
    v.CourseAddMember? || v.CourseDeleteMember? || v.LectureListCreate? || v.HomeworkListCreate?
    || v.HomeworkSolutions? || v.MarkCreate?
  }

  /** Member management, lecture and homework creation, the homework's
      solution list and mark creation: a Teacher who is a member of the
      resolved course, and nobody else. */
  lemma TeacherOnlyRule(st: Store, v: View, req: Request)
    requires TeacherOnly(v)
    ensures Authorize(st, v, req) == Allow <==> req.user.Some? && IsMember(st, req) && HasRole(req, Teacher)
    ensures Authorize(st, v, req) != Error
  {
    CheckThree(st, Atom(IsAuthenticated), Atom(UserIsCourseMember), Atom(UserIsTeacher), req);
  }

  /** Lecture and homework detail: a member may read, and only a member
      Teacher may modify. */
  lemma ReadOrTeacherRule(st: Store, v: View, req: Request)
    requires v.LectureDetail? || v.HomeworkDetail?
    ensures Authorize(st, v, req) == Allow <==>
      req.user.Some? && IsMember(st, req) && (HasRole(req, Teacher) || IsSafe(req.verb))
    ensures Authorize(st, v, req) != Error
  {
    CheckThree(st, Atom(IsAuthenticated), Atom(UserIsCourseMember), Or(Atom(UserIsTeacher), Atom(SafeOnly)), req);
  }

  /** Solution creation: an authenticated Student, member of the course,
      who has no solution yet for the path's homework. */
  lemma SolutionCreateRule(st: Store, req: Request)
    requires HomeworkKey in req.path
    ensures Authorize(st, SolutionListCreate, req) == Allow <==>
      && req.user.Some?
      && HasRole(req, Student)
      && IsMember(st, req)
      && !WroteSolutionFor(st, req.path[HomeworkKey], req.user.value.id)
    ensures Authorize(st, SolutionListCreate, req) == Error <==>
      && req.user.Some?
      && HasRole(req, Student)
      && IsMember(st, req)
      && WroteTwoSolutionsFor(st, req.path[HomeworkKey], req.user.value.id)
    ensures OneSolutionPerAuthor(st) ==> Authorize(st, SolutionListCreate, req) != Error
  {
    var student := Permissions.UserIsStudent(req);
    var member := Permissions.UserIsCourseMember(st, req);
    var noSolution := Permissions.StudentHasNoSolution(st, req);
    CheckFour(st, Atom(IsAuthenticated), Atom(UserIsStudent), Atom(UserIsCourseMember), Atom(StudentHasNoSolution), req);
  }

  /** Solution and mark detail, as the lists evaluate: a member who owns the
      solution or is a Teacher. No Student-role test is applied. */
  lemma OwnerOrTeacherRule(st: Store, v: View, req: Request)
    requires v.SolutionDetail? || v.MarkDetail?
    requires SolutionKey in req.path
    ensures Authorize(st, v, req) == Allow <==>
      req.user.Some? && IsMember(st, req) && (IsOwner(st, req) || HasRole(req, Teacher))
    ensures Authorize(st, v, req) != Error
  {
    CheckThree(st, Atom(IsAuthenticated), Atom(UserIsCourseMember), OwnerOrTeacher(), req);
  }

  /** The missing Student-role test changes nothing: only Teachers and
      Students can be members, so the lists decide as the intended
      member and ((Student and owner) or Teacher) would. */
  lemma StudentTestRedundant(st: Store, v: View, req: Request)
    requires v.SolutionDetail? || v.MarkDetail?
    requires SolutionKey in req.path
    ensures Authorize(st, v, req) == Allow <==>
      && req.user.Some?
      && IsMember(st, req)
      && ((HasRole(req, Student) && IsOwner(st, req)) || HasRole(req, Teacher))
  {
    OwnerOrTeacherRule(st, v, req);
  }

  /** On the commentary route the left operand of `|` indexes a solution id
      the route does not capture: every authenticated member gets an
      exception, everyone else a denial, and nobody is allowed. */
  lemma CommentaryRouteFails(st: Store, req: Request)
    requires Routed(CommentaryCreate, req.path)
    ensures Authorize(st, CommentaryCreate, req) != Allow
    ensures Authorize(st, CommentaryCreate, req) == Error <==> req.user.Some? && IsMember(st, req)
  {
    assert SolutionKey !in req.path;
    CheckThree(st, Atom(IsAuthenticated), Atom(UserIsCourseMember), OwnerOrTeacher(), req);
  }
}

=== FILE: serializers.dfy ===
/** CourseSerializer of classroom/serializers.py: the role-filtered teacher
    and student slug fields and the create() that builds a course from them. */
module Serializers {
  import opened Models

  /** The course payload as submitted. Both slug lists may be left out. */
  datatype CoursePayload = CoursePayload(
    title: string,
    description: string,
    teacher: Option<seq<string>>,
    student: Option<seq<string>>)

  /** The users of the field's queryset (role filter) carrying a username. */
  function SlugMatches(st: Store, name: string, role: Role): set<Id> {
    set u | u in st.users && st.users[u].username == name && st.users[u].role == role
  }

  /** A slug list validates item by item: each name must pick exactly one
      user from the field's queryset, and the first name that picks none
      stops validation with "does not exist". Several users with one
      username cannot be stored (usernames are unique); the model refuses
      that case as well. */
  datatype Slugs = Slugs(ids: set<Id>) | BadSlug(name: string)

  function ResolveSlugs(st: Store, names: seq<string>, role: Role): (r: Slugs)
    ensures r.Slugs? <==> forall i :: 0 <= i < |names| ==> |SlugMatches(st, names[i], role)| == 1
    ensures r.BadSlug? ==> r.name in names && |SlugMatches(st, r.name, role)| != 1
    ensures r.Slugs? ==> forall u :: u in r.ids <==>
      (u in st.users && st.users[u].role == role && st.users[u].username in names)
    decreases |names|
  {
    if |names| == 0 then Slugs({})
    else
      var here := SlugMatches(st, names[0], role);
      if |here| != 1 then BadSlug(names[0])
      else
        var rest := ResolveSlugs(st, names[1..], role);
        assert forall n :: n in names <==> n == names[0] || n in names[1..];
        if rest.BadSlug? then rest else Slugs(here + rest.ids)
  }

  /** The users a supplied list names, with the given role. */
  ghost predicate Named(st: Store, list: Option<seq<string>>, role: Role, u: Id) {
    list.Some? && u in st.users && st.users[u].role == role && st.users[u].username in list.value
  }

  /** Every name in a supplied list picks exactly one user of the role. */
  ghost predicate ListValid(st: Store, list: Option<seq<string>>, role: Role) {
    list.Some? ==> forall n :: n in list.value ==> |SlugMatches(st, n, role)| == 1
  }

  datatype CourseCreated = Created(st: Store, id: Id) | Rejected

  /** The title column's max_length. */
  const TitleMaxLength: nat := 255

  /** The serializer fields for the title (a CharField) and the description
      (a TextField) are required, refuse blank strings and strings holding a
      NUL character; the title also refuses more than max_length
      characters. */
  predicate TextFieldsValid(p: CoursePayload) {
    && 0 < |p.title| <= TitleMaxLength && '\0' !in p.title
    && 0 < |p.description| && '\0' !in p.description
  }

  /** Validation, then create(): the course gets the supplied teachers and
      the creator as teachers and exactly the supplied students; an absent
      list is empty. */
  function CreateCourse(st: Store, creator: Id, p: CoursePayload): (r: CourseCreated)
    ensures r.Created? <==>
      TextFieldsValid(p) && ListValid(st, p.teacher, Teacher) && ListValid(st, p.student, Student)
    ensures r.Created? ==>
      && r.id !in st.courses && r.id in r.st.courses
      && r.st == st.(courses := st.courses[r.id := r.st.courses[r.id]])
      && r.st.courses[r.id].title == p.title
      && r.st.courses[r.id].description == p.description
      && creator in r.st.courses[r.id].teachers
      && (forall u :: u in r.st.courses[r.id].teachers <==> u == creator || Named(st, p.teacher, Teacher, u))
      && (forall u :: u in r.st.courses[r.id].students <==> Named(st, p.student, Student, u))
    ensures r.Created? && p.teacher.None? ==> r.st.courses[r.id].teachers == {creator}
    ensures r.Created? && p.student.None? ==> r.st.courses[r.id].students == {}
  {
    var teachers := if p.teacher.Some? then ResolveSlugs(st, p.teacher.value, Teacher) else Slugs({});
    var students := if p.student.Some? then ResolveSlugs(st, p.student.value, Student) else Slugs({});
    if !TextFieldsValid(p) || teachers.BadSlug? || students.BadSlug? then Rejected
    else
      var id := FreshKey(st.courses.Keys);
      var course := Course(p.title, p.description, teachers.ids + {creator}, students.ids);
      Created(st.(courses := st.courses[id := course]), id)
  }

  /** A created course keeps the store well-formed when the creator is a
      stored user, and when the creator is a Teacher every teacher of the
      course is a Teacher and every student a Student. */
  lemma CreateCourseRoles(st: Store, creator: Id, p: CoursePayload)
    requires creator in st.users
    ensures var r := CreateCourse(st, creator, p);
      r.Created? ==>
        && (WellFormed(st) ==> WellFormed(r.st))
        && (st.users[creator].role == Teacher ==>
              forall u :: u in r.st.courses[r.id].teachers ==> st.users[u].role == Teacher)
        && (forall u :: u in r.st.courses[r.id].students ==> st.users[u].role == Student)
  {
  }
}

=== FILE: views.dfy ===
/** The handlers of classroom/views.py: the member add and delete views,
    the get_queryset parent filters, and what each perform_create saves. */
module Views {
  import opened Models
  import opened Permissions
  import opened Policy
  import opened Serializers

  datatype Status =
    | Ok200
    | Created201
    | BadRequest400
    | Unauthorized401
    | Forbidden403
    | NotFound404
    | MethodNotAllowed405
    | ServerError500

  datatype Reply = Reply(status: Status, payload: string)

  const CantDeleteTeacher: string := "You can't delete Teacher"
  const IncorrectData: string := "Incorrect data"

  /** The store after a request and the reply sent. */
  datatype Outcome = Outcome(st: Store, reply: Reply)

  /** The reply when check_permissions refuses: an exception is a server
      error, a refusal of the anonymous user is NotAuthenticated and any
      other refusal is PermissionDenied. */
  function Refusal(req: Request, v: Verdict): (s: Status)
    requires v != Allow
    ensures s == ServerError500 <==> v == Error
    ensures s == Unauthorized401 <==> v == Deny && req.user.None?
    ensures s == Forbidden403 <==> v == Deny && req.user.Some?
  {
    match v
    case Error => ServerError500
    case Deny => if req.user.None? then Unauthorized401 else Forbidden403
  }

  // ---------------------------------------------------------------------
  // Members
  // ---------------------------------------------------------------------

  /** User.objects.get(username=...): no row, one row, or several. */
  datatype UserLookup = NoUser | OneUser(id: Id) | ManyUsers

  function FindUser(st: Store, name: Option<string>): (r: UserLookup)
    ensures r.OneUser? ==> r.id in st.users && name == Some(st.users[r.id].username)
    ensures r.NoUser? <==> name.None? || forall u :: u in st.users ==> st.users[u].username != name.value
    ensures UsernamesUnique(st) ==> !r.ManyUsers?
  {
    if name.None? then NoUser
    else if exists u :: u in st.users && st.users[u].username == name.value then
      if exists a, b :: (a in st.users && b in st.users && a != b
                         && st.users[a].username == name.value && st.users[b].username == name.value)
      then ManyUsers
      else
        var u :| u in st.users && st.users[u].username == name.value;
        OneUser(u)
    else NoUser
  }

  /** The request found a course from the path and a user by the username,
      the two rows a membership change works on. */
  predicate Targets(st: Store, p: PathIds, name: Option<string>) {
    CourseKey in p && p[CourseKey] in st.courses && FindUser(st, name).OneUser?
  }

  /** A store that differs from `st` at most in the membership of course c. */
  predicate OnlyCourseChanged(st: Store, st': Store, c: Id)
    requires c in st.courses && c in st'.courses
  {
    && st' == st.(courses := st.courses[c := st'.courses[c]])
    && st'.courses[c].title == st.courses[c].title
    && st'.courses[c].description == st.courses[c].description
  }

  /** CourseListAddMemberView.post: the user named in the payload joins the
      membership table of their role; any other role leaves the course as it
      was and the reply is still 200. */
  function AddMember(st: Store, p: PathIds, name: Option<string>): (o: Outcome)
    ensures o.reply.status != Ok200 ==> o.st == st
    ensures o.reply.status == Ok200 <==> Targets(st, p, name)
    ensures o.reply.status == NotFound404 <==>
      CourseKey in p && (p[CourseKey] !in st.courses || FindUser(st, name).NoUser?)
    ensures Targets(st, p, name) ==>
      var c, u := p[CourseKey], FindUser(st, name).id;
      c in o.st.courses &&
      var before, after := st.courses[c], o.st.courses[c];
      && OnlyCourseChanged(st, o.st, c)
      && after.students - {u} == before.students - {u}
      && after.teachers - {u} == before.teachers - {u}
      && (u in after.students <==> u in before.students || st.users[u].role == Student)
      && (u in after.teachers <==> u in before.teachers || st.users[u].role == Teacher)
  {
    if CourseKey !in p then Outcome(st, Reply(ServerError500, ""))
    else if p[CourseKey] !in st.courses then Outcome(st, Reply(NotFound404, ""))
    else
      var c := p[CourseKey];
      match FindUser(st, name)
      case NoUser => Outcome(st, Reply(NotFound404, ""))
      case ManyUsers => Outcome(st, Reply(ServerError500, ""))
      case OneUser(u) =>
        var course := st.courses[c];
        var course' :=
          if st.users[u].role == Student then course.(students := course.students + {u})
          else if st.users[u].role == Teacher then course.(teachers := course.teachers + {u})
          else course;
        Outcome(st.(courses := st.courses[c := course']), Reply(Ok200, ""))
  }

  /** CourseListDeleteMemberView.delete: a Student leaves the student table;
      a Teacher cannot be removed; any other role is a bad request. */
  function DeleteMember(st: Store, p: PathIds, name: Option<string>): (o: Outcome)
    ensures o.reply.status != Ok200 ==> o.st == st
    ensures o.reply.status == NotFound404 <==>
      CourseKey in p && (p[CourseKey] !in st.courses || FindUser(st, name).NoUser?)
    ensures Targets(st, p, name) ==>
      var c, u := p[CourseKey], FindUser(st, name).id;
      c in o.st.courses &&
      var before, after := st.courses[c], o.st.courses[c];
      && (st.users[u].role == Student <==> o.reply.status == Ok200)
      && (st.users[u].role == Teacher <==> o.reply == Reply(Forbidden403, CantDeleteTeacher))
      && (st.users[u].role.Unlisted? <==> o.reply == Reply(BadRequest400, IncorrectData))
      && OnlyCourseChanged(st, o.st, c)
      && after.students - {u} == before.students - {u}
      && (o.reply.status == Ok200 ==> u !in after.students)
      && after.teachers == before.teachers
  {
    if CourseKey !in p then Outcome(st, Reply(ServerError500, ""))
    else if p[CourseKey] !in st.courses then Outcome(st, Reply(NotFound404, ""))
    else
      var c := p[CourseKey];
      match FindUser(st, name)
      case NoUser => Outcome(st, Reply(NotFound404, ""))
      case ManyUsers => Outcome(st, Reply(ServerError500, ""))
      case OneUser(u) =>
        var course := st.courses[c];
        if st.users[u].role == Student then
          Outcome(st.(courses := st.courses[c := course.(students := course.students - {u})]), Reply(Ok200, ""))
        else if st.users[u].role == Teacher then
          Outcome(st, Reply(Forbidden403, CantDeleteTeacher))
        else
          Outcome(st, Reply(BadRequest400, IncorrectData))
  }

  /** Adding a member twice is the same as adding them once. */
  lemma AddMemberIdempotent(st: Store, p: PathIds, name: Option<string>)
    ensures AddMember(AddMember(st, p, name).st, p, name) == AddMember(st, p, name)
  {
    var o := AddMember(st, p, name);
    assert o.st.users == st.users;
    assert FindUser(o.st, name) == FindUser(st, name);
  }

  lemma AddMemberKeepsWellFormed(st: Store, p: PathIds, name: Option<string>)
    requires WellFormed(st)
    ensures WellFormed(AddMember(st, p, name).st)
  {
  }

  lemma DeleteMemberKeepsWellFormed(st: Store, p: PathIds, name: Option<string>)
    requires WellFormed(st)
    ensures WellFormed(DeleteMember(st, p, name).st)
  {
  }

  /** With only the two offered roles stored, deleting a member is never a
      bad request, and a found user always ends up in the table of their
      role. */
  lemma ChoiceRolesNeverBadRequest(st: Store, p: PathIds, name: Option<string>)
    requires RolesAreChoices(st)
    ensures DeleteMember(st, p, name).reply.status != BadRequest400
    ensures Targets(st, p, name) ==>
      var c, u := p[CourseKey], FindUser(st, name).id;
      u in AddMember(st, p, name).st.courses[c].teachers + AddMember(st, p, name).st.courses[c].students
  {
  }

  /** Deleting a Student who was added to a course they were not in gives
      back the store as it was. */
  lemma AddThenDeleteStudent(st: Store, p: PathIds, name: Option<string>)
    requires Targets(st, p, name)
    requires st.users[FindUser(st, name).id].role == Student
    requires FindUser(st, name).id !in st.courses[p[CourseKey]].students
    ensures DeleteMember(AddMember(st, p, name).st, p, name).st == st
  {
    var c, u := p[CourseKey], FindUser(st, name).id;
    var st1 := AddMember(st, p, name).st;
    assert st1.users == st.users;
    assert FindUser(st1, name) == FindUser(st, name);
    var st2 := DeleteMember(st1, p, name).st;
    assert st2.courses[c].students == st.courses[c].students;
    assert st2.courses[c] == st.courses[c];
    assert st2.courses == st.courses;
  }

  /** The membership views run their permission list first, then the
      handler for the HTTP method. The add-member view has post, and get
      (ListCreateAPIView's list(), which fails for want of a queryset); the
      delete-member view has only delete. HEAD follows GET, every view
      answers OPTIONS with its metadata, and any other method is 405. A
      request that does not reach post or delete changes nothing. */
  function AddMemberRequest(st: Store, req: Request, name: Option<string>): (o: Outcome)
    ensures Authorize(st, CourseAddMember, req) != Allow ==>
      o.st == st && o.reply.status == Refusal(req, Authorize(st, CourseAddMember, req))
    ensures Authorize(st, CourseAddMember, req) == Allow && req.verb == POST ==>
      o == AddMember(st, req.path, name)
    ensures req.verb != POST ==> o.st == st
    ensures o.reply.status == MethodNotAllowed405 <==>
      Authorize(st, CourseAddMember, req) == Allow && req.verb in {PUT, PATCH, DELETE}
    ensures Authorize(st, CourseAddMember, req) == Allow && req.verb in {GET, HEAD} ==>
      o.reply.status == ServerError500
    ensures Authorize(st, CourseAddMember, req) == Allow && req.verb == OPTIONS ==>
      o.reply.status == Ok200
  {
    var v := Authorize(st, CourseAddMember, req);
    if v != Allow then Outcome(st, Reply(Refusal(req, v), ""))
    else
      match req.verb
      case POST => AddMember(st, req.path, name)
      case GET => Outcome(st, Reply(ServerError500, ""))
      case HEAD => Outcome(st, Reply(ServerError500, ""))
      case OPTIONS => Outcome(st, Reply(Ok200, ""))
      case _ => Outcome(st, Reply(MethodNotAllowed405, ""))
  }

  function DeleteMemberRequest(st: Store, req: Request, name: Option<string>): (o: Outcome)
    ensures Authorize(st, CourseDeleteMember, req) != Allow ==>
      o.st == st && o.reply.status == Refusal(req, Authorize(st, CourseDeleteMember, req))
    ensures Authorize(st, CourseDeleteMember, req) == Allow && req.verb == DELETE ==>
      o == DeleteMember(st, req.path, name)
    ensures req.verb != DELETE ==> o.st == st
    ensures o.reply.status == MethodNotAllowed405 <==>
      Authorize(st, CourseDeleteMember, req) == Allow && req.verb !in {DELETE, OPTIONS}
    ensures Authorize(st, CourseDeleteMember, req) == Allow && req.verb == OPTIONS ==>
      o.reply.status == Ok200
  {
    var v := Authorize(st, CourseDeleteMember, req);
    if v != Allow then Outcome(st, Reply(Refusal(req, v), ""))
    else
      match req.verb
      case DELETE => DeleteMember(st, req.path, name)
      case OPTIONS => Outcome(st, Reply(Ok200, ""))
      case _ => Outcome(st, Reply(MethodNotAllowed405, ""))
  }

  /** Only a Teacher in the teacher table of the path's course can change
      that course's membership. */
  lemma MembershipChangeNeedsCourseTeacher(st: Store, req: Request, name: Option<string>)
    ensures AddMemberRequest(st, req, name).st != st ==>
      && req.verb == POST
      && HasRole(req, Teacher)
      && CourseKey in req.path && req.path[CourseKey] in st.courses
      && req.user.value.id in st.courses[req.path[CourseKey]].teachers
    ensures DeleteMemberRequest(st, req, name).st != st ==>
      && req.verb == DELETE
      && HasRole(req, Teacher)
      && CourseKey in req.path && req.path[CourseKey] in st.courses
      && req.user.value.id in st.courses[req.path[CourseKey]].teachers
  {
    TeacherOnlyRule(st, CourseAddMember, req);
    TeacherOnlyRule(st, CourseDeleteMember, req);
    if CourseKey in req.path && req.path[CourseKey] in st.courses {
      var c := req.path[CourseKey];
      assert Matches(st, req.path, c);
      assert c in CourseCandidates(st, req.path);
    }
  }

  // ---------------------------------------------------------------------
  // get_queryset parent filters
  // ---------------------------------------------------------------------

  /** get_object: the row found, a 404, or an exception. */
  datatype Lookup = Hit(id: Id) | Miss | Crash

  /** LectureListDetailView: the course is fetched with get(), whose
      DoesNotExist is not caught, and the lecture is then looked up among
      that course's lectures only. */
  function LectureLookup(st: Store, p: PathIds): (r: Lookup)
    ensures r == Crash <==> CourseKey !in p || LectureKey !in p || p[CourseKey] !in st.courses
    ensures r.Hit? <==>
      && CourseKey in p && LectureKey in p && p[CourseKey] in st.courses
      && p[LectureKey] in st.lectures && st.lectures[p[LectureKey]].course == p[CourseKey]
    ensures r.Hit? ==> r.id == p[LectureKey]
  {
    if CourseKey !in p || p[CourseKey] !in st.courses then Crash
    else if LectureKey !in p then Crash
    else
      var l := p[LectureKey];
      if l in st.lectures && st.lectures[l].course == p[CourseKey] then Hit(l) else Miss
  }

  /** HomeworkListDetailView and HomeworkSolutionsDetailView share this
      filter: the lecture is fetched with get() from the path's lecture id,
      and the homework is looked up among that lecture's homework. */
  function HomeworkLookup(st: Store, p: PathIds): (r: Lookup)
    ensures r == Crash <==> LectureKey !in p || HomeworkKey !in p || p[LectureKey] !in st.lectures
    ensures r.Hit? <==>
      && LectureKey in p && HomeworkKey in p && p[LectureKey] in st.lectures
      && p[HomeworkKey] in st.homeworks && st.homeworks[p[HomeworkKey]].lecture == p[LectureKey]
    ensures r.Hit? ==> r.id == p[HomeworkKey]
  {
    if LectureKey !in p || p[LectureKey] !in st.lectures then Crash
    else if HomeworkKey !in p then Crash
    else
      var h := p[HomeworkKey];
      if h in st.homeworks && st.homeworks[h].lecture == p[LectureKey] then Hit(h) else Miss
  }

  /** The homework-solutions route captures no lecture id, so its lookup
      always raises. */
  lemma HomeworkSolutionsAlwaysCrash(st: Store, p: PathIds)
    requires Routed(HomeworkSolutions, p)
    ensures HomeworkLookup(st, p) == Crash
  {
    assert LectureKey !in RouteKeys(HomeworkSolutions);
  }

  // ---------------------------------------------------------------------
  // perform_create
  // ---------------------------------------------------------------------

  /** The fields a create serializer accepts; none of them names a parent. */
  datatype Payload = Payload(title: string, text: string)

  datatype Saved = Saved(st: Store, id: Id) | Refused(status: Status)

  /** LectureListCreateView.perform_create: the course comes from the path.
      A missing path key raises KeyError; a course id naming no course
      violates the foreign key. */
  function CreateLecture(st: Store, p: PathIds, body: Payload): (r: Saved)
    ensures r.Saved? <==> CourseKey in p && p[CourseKey] in st.courses
    ensures r.Saved? ==>
      && r.id !in st.lectures && r.id in r.st.lectures
      && r.st == st.(lectures := st.lectures[r.id := r.st.lectures[r.id]])
      && r.st.lectures[r.id].course == p[CourseKey]
      && r.st.lectures[r.id].title == body.title
      && (WellFormed(st) ==> WellFormed(r.st))
    ensures r.Refused? ==> r.status == ServerError500
  {
    if CourseKey !in p || p[CourseKey] !in st.courses then Refused(ServerError500)
    else
      var id := FreshKey(st.lectures.Keys);
      Saved(st.(lectures := st.lectures[id := Lecture(body.title, body.text, p[CourseKey])]), id)
  }

  /** HomeworkListCreateView.perform_create: the lecture comes from the path. */
  function CreateHomework(st: Store, p: PathIds, body: Payload): (r: Saved)
    ensures r.Saved? <==> LectureKey in p && p[LectureKey] in st.lectures
    ensures r.Saved? ==>
      && r.id !in st.homeworks && r.id in r.st.homeworks
      && r.st == st.(homeworks := st.homeworks[r.id := r.st.homeworks[r.id]])
      && r.st.homeworks[r.id].lecture == p[LectureKey]
      && r.st.homeworks[r.id].title == body.title
      && (WellFormed(st) ==> WellFormed(r.st))
    ensures r.Refused? ==> r.status == ServerError500
  {
    if LectureKey !in p || p[LectureKey] !in st.lectures then Refused(ServerError500)
    else
      var id := FreshKey(st.homeworks.Keys);
      Saved(st.(homeworks := st.homeworks[id := Homework(body.title, body.text, p[LectureKey])]), id)
  }

  /** CommentaryCreateView.perform_create: the mark comes from the path and
      the author is the requester. */
  function CreateCommentary(st: Store, p: PathIds, author: Id, body: Payload): (r: Saved)
    ensures r.Saved? <==> MarkKey in p && p[MarkKey] in st.marks && author in st.users
    ensures r.Saved? ==>
      && r.id !in st.commentaries && r.id in r.st.commentaries
      && r.st == st.(commentaries := st.commentaries[r.id := r.st.commentaries[r.id]])
      && r.st.commentaries[r.id].mark == p[MarkKey]
      && r.st.commentaries[r.id].author == author
      && (WellFormed(st) ==> WellFormed(r.st))
    ensures r.Refused? ==> r.status == ServerError500
  {
    if MarkKey !in p || p[MarkKey] !in st.marks || author !in st.users then Refused(ServerError500)
    else
      var id := FreshKey(st.commentaries.Keys);
      Saved(st.(commentaries := st.commentaries[id := Commentary(body.text, author, p[MarkKey])]), id)
  }

  // Model(**kwargs) accepts field names only; save() passes the
  // serializer's validated data together with the keywords the view adds.

  const SolutionFields: set<string> :=
    {"id", "solution", "create_date", "user", "user_id", "homework", "homework_id"}
  const SolutionSaveKeywords: set<string> := {"solution", "user", "homework_id", "course_id"}

  const MarkFields: set<string> := {"id", "value", "user", "user_id", "solution", "solution_id"}
  const MarkSaveKeywords: set<string> := {"value", "creator", "solution_id", "course_id"}

  /** SolutionListCreateView.perform_create as written: `course_id` is not a
      field of Solution, so instantiating the model raises TypeError and no
      solution is ever saved. */
  function SaveSolutionAsWritten(st: Store, p: PathIds, author: Id, body: Payload): (r: Saved)
    ensures r == Refused(ServerError500)
  {
    assert "course_id" in SolutionSaveKeywords && "course_id" !in SolutionFields;
    if !(SolutionSaveKeywords <= SolutionFields) then Refused(ServerError500)
    else CreateSolution(st, p, author, body)
  }

  /** The save as intended: the requester is the author and the homework
      comes from the path. */
  function CreateSolution(st: Store, p: PathIds, author: Id, body: Payload): (r: Saved)
    ensures r.Saved? <==> HomeworkKey in p && p[HomeworkKey] in st.homeworks && author in st.users
    ensures r.Saved? ==>
      && r.id !in st.solutions && r.id in r.st.solutions
      && r.st == st.(solutions := st.solutions[r.id := r.st.solutions[r.id]])
      && r.st.solutions[r.id].homework == p[HomeworkKey]
      && r.st.solutions[r.id].author == author
      && r.st.solutions[r.id].text == body.text
      && (WellFormed(st) ==> WellFormed(r.st))
    ensures r.Refused? ==> r.status == ServerError500
  {
    if HomeworkKey !in p || p[HomeworkKey] !in st.homeworks || author !in st.users then Refused(ServerError500)
    else
      var id := FreshKey(st.solutions.Keys);
      Saved(st.(solutions := st.solutions[id := Solution(body.text, author, p[HomeworkKey])]), id)
  }

  /** Once a student's solution is saved, a second create by the same
      student for the same homework is refused by StudentHasNoSolution: a
      denial when it was their first solution, and never an allow. */
  lemma SecondSolutionRefused(st: Store, req: Request, body: Payload)
    requires req.user.Some? && HomeworkKey in req.path
    requires CreateSolution(st, req.path, req.user.value.id, body).Saved?
    ensures var st' := CreateSolution(st, req.path, req.user.value.id, body).st;
      && Permissions.StudentHasNoSolution(st', req) != Allow
      && Authorize(st', SolutionListCreate, req) != Allow
    ensures !WroteSolutionFor(st, req.path[HomeworkKey], req.user.value.id) ==>
      var st' := CreateSolution(st, req.path, req.user.value.id, body).st;
      && Permissions.StudentHasNoSolution(st', req) == Deny
      && Authorize(st', SolutionListCreate, req) == Deny
  {
    var r := CreateSolution(st, req.path, req.user.value.id, body);
    var h, a := req.path[HomeworkKey], req.user.value.id;
    assert r.st.solutions[r.id].homework == h;
    assert WroteSolutionFor(r.st, h, a);
    SolutionCreateRule(r.st, req);
    if !WroteSolutionFor(st, h, a) {
      assert forall s ::
        (s in r.st.solutions && r.st.solutions[s].homework == h && r.st.solutions[s].author == a) ==> s == r.id;
    }
  }

  /** A create the permission list allows keeps every author at one
      solution per homework. */
  lemma AuthorizedCreateKeepsOneSolution(st: Store, req: Request, body: Payload)
    requires OneSolutionPerAuthor(st)
    requires req.user.Some? && HomeworkKey in req.path
    requires Authorize(st, SolutionListCreate, req) == Allow
    ensures var r := CreateSolution(st, req.path, req.user.value.id, body);
      r.Saved? ==> OneSolutionPerAuthor(r.st)
  {
    SolutionCreateRule(st, req);
    var r := CreateSolution(st, req.path, req.user.value.id, body);
    if r.Saved? {
      var h, a := req.path[HomeworkKey], req.user.value.id;
      assert forall s ::
        (s in r.st.solutions && r.st.solutions[s].homework == h && r.st.solutions[s].author == a) ==> s == r.id;
    }
  }

  /** MarkCreateView.perform_create as written: `creator` and `course_id` are
      not fields of Mark, so no mark is ever saved. */
  function SaveMarkAsWritten(st: Store, p: PathIds, grader: Id, value: Option<int>): (r: Saved)
    ensures r == Refused(ServerError500)
  {
    assert "creator" in MarkSaveKeywords && "creator" !in MarkFields;
    if !(MarkSaveKeywords <= MarkFields) then Refused(ServerError500)
    else CreateMark(st, p, grader, value)
  }

  /** The save as intended: the requester grades the solution of the path.
      The value must fit a small integer (400 otherwise) and defaults to 0;
      a second mark for one solution violates the one-to-one field. */
  function CreateMark(st: Store, p: PathIds, grader: Id, value: Option<int>): (r: Saved)
    ensures r.Saved? <==>
      && (value.Some? ==> SmallIntMin <= value.value <= SmallIntMax)
      && SolutionKey in p && p[SolutionKey] in st.solutions && grader in st.users
      && !HasMark(st, p[SolutionKey])
    ensures r.Saved? ==>
      && r.id !in st.marks && r.id in r.st.marks
      && r.st == st.(marks := st.marks[r.id := r.st.marks[r.id]])
      && r.st.marks[r.id].solution == p[SolutionKey]
      && r.st.marks[r.id].grader == grader
      && r.st.marks[r.id].value == (if value.Some? then value.value else DefaultMarkValue)
      && (WellFormed(st) ==> WellFormed(r.st))
    ensures r == Refused(BadRequest400) <==> value.Some? && !(SmallIntMin <= value.value <= SmallIntMax)
  {
    if value.Some? && !(SmallIntMin <= value.value <= SmallIntMax) then Refused(BadRequest400)
    else if SolutionKey !in p || p[SolutionKey] !in st.solutions || grader !in st.users then Refused(ServerError500)
    else if HasMark(st, p[SolutionKey]) then Refused(ServerError500)
    else
      var id := FreshKey(st.marks.Keys);
      var v := if value.Some? then value.value else DefaultMarkValue;
      Saved(st.(marks := st.marks[id := Mark(v, grader, p[SolutionKey])]), id)
  }

  /** A mark exists for a solution after it is graded, so grading it again
      is refused: marks stay one per solution. */
  lemma SecondMarkRefused(st: Store, p: PathIds, grader: Id, value: Option<int>, grader2: Id, value2: Option<int>)
    requires CreateMark(st, p, grader, value).Saved?
    ensures CreateMark(CreateMark(st, p, grader, value).st, p, grader2, value2).Refused?
  {
    var r := CreateMark(st, p, grader, value);
    assert r.st.marks[r.id].solution == p[SolutionKey];
    assert HasMark(r.st, p[SolutionKey]);
  }

  // ---------------------------------------------------------------------
  // Course creation
  // ---------------------------------------------------------------------

  /** What a request to the course viewset comes to, as far as creation
      goes: a new course, a reply that leaves the store as it was, or an
      update or destroy of the course named by `pk`, which is not carried
      out here (Cascade.DeleteRecord is destroy). */
  datatype CourseReply = NewCourse(st: Store, id: Id) | Unchanged(status: Status) | DetailWrite

  /** The router's `course/` route maps GET to list() and POST to create();
      `course/<pk>/` maps GET to retrieve(), PUT and PATCH to update() and
      DELETE to destroy(). */
  predicate ReachesCreate(req: Request) {
    req.verb == POST && PkKey !in req.path
  }

  /** CourseListDetailView: the list's permissions, then the action the
      route and the HTTP method select. HEAD follows GET, OPTIONS is
      answered with metadata, and a method the route does not map is 405.
      create() is the serializer's create with the requester as creator. */
  function CourseRequest(st: Store, req: Request, body: CoursePayload): (r: CourseReply)
    ensures Authorize(st, CourseListDetail, req) != Allow ==>
      r == Unchanged(Refusal(req, Authorize(st, CourseListDetail, req)))
    ensures r.NewCourse? ==>
      && ReachesCreate(req) && req.user.Some?
      && CreateCourse(st, req.user.value.id, body) == Created(r.st, r.id)
    ensures Authorize(st, CourseListDetail, req) == Allow && ReachesCreate(req) ==>
      r.NewCourse? || r == Unchanged(BadRequest400)
    ensures r == Unchanged(BadRequest400) <==>
      && Authorize(st, CourseListDetail, req) == Allow && ReachesCreate(req)
      && CreateCourse(st, req.user.value.id, body).Rejected?
    ensures r == Unchanged(MethodNotAllowed405) <==>
      && Authorize(st, CourseListDetail, req) == Allow
      && (if PkKey in req.path then req.verb == POST else req.verb in {PUT, PATCH, DELETE})
    ensures r.DetailWrite? <==>
      Authorize(st, CourseListDetail, req) == Allow && PkKey in req.path && req.verb in {PUT, PATCH, DELETE}
    ensures IsSafe(req.verb) ==> r.Unchanged?
    ensures Authorize(st, CourseListDetail, req) == Allow && PkKey in req.path && req.verb in {GET, HEAD} ==>
      r == Unchanged(if req.path[PkKey] in st.courses then Ok200 else NotFound404)
  {
    var v := Authorize(st, CourseListDetail, req);
    if v != Allow then Unchanged(Refusal(req, v))
    else if PkKey !in req.path then
      match req.verb
      case POST =>
        (match CreateCourse(st, req.user.value.id, body)
         case Rejected => Unchanged(BadRequest400)
         case Created(st', id) => NewCourse(st', id))
      case GET => Unchanged(Ok200)
      case HEAD => Unchanged(Ok200)
      case OPTIONS => Unchanged(Ok200)
      case _ => Unchanged(MethodNotAllowed405)
    else
      match req.verb
      case POST => Unchanged(MethodNotAllowed405)
      case GET => Unchanged(if req.path[PkKey] in st.courses then Ok200 else NotFound404)
      case HEAD => Unchanged(if req.path[PkKey] in st.courses then Ok200 else NotFound404)
      case OPTIONS => Unchanged(Ok200)
      case _ => DetailWrite
  }

  /** Only a Teacher can create a course, and the creator is in its teacher
      table; a safe method never creates one. */
  lemma CreatedCourseHasCreatorAsTeacher(st: Store, req: Request, body: CoursePayload)
    ensures var r := CourseRequest(st, req, body);
      r.NewCourse? ==>
        && req.verb == POST
        && HasRole(req, Teacher)
        && r.id in r.st.courses
        && req.user.value.id in r.st.courses[r.id].teachers
  {
    if req.user.Some? {
      CourseViewRule(st, req);
    } else {
      AnonymousAlwaysDenied(st, CourseListDetail, req);
    }
  }
}
